=== FILE: README.md ===
# Strava OAuth route handlers — a Dafny model

The repository connects a runner's Strava account to the runner's record in an
Airtable users table. It does this with three Next.js route handlers built on
the OAuth 2.0 authorization-code and refresh-token grants (RFC 6749).

- `GET /api/strava/start` checks the `state` query parameter. The state is the
  user's Airtable record id and must start with `rec`. The handler then
  redirects the browser to Strava's authorization endpoint with the parameters
  of an authorization request (section 4.1.1 of RFC 6749).
- `GET /api/strava/callback` receives the authorization server's redirect. It
  checks `error`, then `code` and `state`, then the five settings. It exchanges
  the code for tokens (section 4.1.3 of RFC 6749) and patches the tokens into
  the record named by `state`. It answers with an HTML page.
- `GET /api/strava/refresh` is a scheduled sweep. It lists the users whose
  token expires within a day (filter `strava_token_expires_at < now + 86400`,
  page size 50). It refreshes each user's token (section 6 of RFC 6749) and
  writes the new tokens back. It reports `{total, refreshed, errors, details}`,
  and one user's failure never stops the others.

The model's external calls are oracle results, passed in as parameters:

- the token endpoint and the record store, each answering `Ok`, `HttpError(status, body)` or `Threw(message)`;
- the environment, as optional strings;
- the clock, as a `now` parameter.

Each handler is a pure function returning `Run(outcome, calls)`. The call
trace lists the external calls in order, so properties such as "no patch after
a failed exchange" can be stated.

Files and modules:

- `js.dfy` (`Js`): the JavaScript semantics the handlers rely on. This covers
  truthiness, `x || null`, `x || fallback`, template interpolation of a null
  value, and `startsWith`.
- `html.dfy` (`Html`): `replace(/</g, "&lt;")` and its inverse.
- `external.dfy` (`External`): the call and answer vocabulary, the settings
  check, the error messages, and form-parameter lookup.
- `store.dfy` (`Store`): what a PATCH does to a record. Listed fields are
  overwritten and all other fields are kept.
- `callback.dfy`, `refresh.dfy` and `start.dfy`: one module per route handler.
- `flow.dfy` (`Flow`): start and callback together.

## Model

| member | source | states |
|---|---|---|
| `Js.OrNull` | app/api/strava/callback/route.ts:119-122 | falling back to null: the result is the value when that value is truthy, and null otherwise; a null result never hides a truthy value |
| `Js.OrDefault` | app/api/strava/start/route.ts:27 | falling back to a default: the result is either the fallback or the value, a present non-empty value wins, and a non-empty fallback makes the result non-empty, so the scheme is never empty |
| `Html.EscapeLt` | app/api/strava/callback/route.ts:164 | the escaped message contains no `<`, and a message without `<` is unchanged |
| `Html.EscapeLtConcat` | app/api/strava/callback/route.ts:164 | escaping works piecewise: escaping a concatenation is concatenating the escapes |
| `Html.EscapeLtLength` | app/api/strava/callback/route.ts:164 | each `<` grows the text by exactly three characters, and nothing else changes its length |
| `Html.UnescapeEscape` | app/api/strava/callback/route.ts:164 | for text without `&`, the escape loses nothing: turning `&lt;` back into `<` recovers the original message |
| `External.Validate` | app/api/strava/callback/route.ts:99-112 | settings are available exactly when all five required variables are truthy, and the client id and secret are the environment's values |
| `External.ErrorMessage` | app/api/strava/callback/route.ts:27-30 | a non-ok response becomes the call's prefix followed by the decimal status, a space and the response text; a thrown error keeps its own message |
| `External.ErrorMessageCarriesResponse` | app/api/strava/refresh/route.ts:33-36 | nothing of a non-ok response is lost in its message: after the prefix, the digits before the first space read back as the status, and the rest is the response text |
| `Js.NatToString` | app/api/strava/callback/route.ts:29 | a status interpolated into a message is a non-empty run of decimal digits without a leading zero (except for zero itself) |
| `Js.NatToStringValue` | app/api/strava/callback/route.ts:29 | reading the interpolated digits back gives the status: the rendering loses nothing |
| `External.FieldKeys` | app/api/strava/callback/route.ts:44 | the keys a patch body writes are exactly the keys of its fields |
| `Store.ApplyPatch` | app/api/strava/callback/route.ts:35-50 | after a PATCH the record has its old keys plus the patched ones, and every unpatched field keeps its value |
| `Store.PatchedField` | app/api/strava/callback/route.ts:44 | when a patch's keys are distinct, the record afterwards holds each patched field with its new value |
| `Callback.HandleCallback` | app/api/strava/callback/route.ts:55-175 | the outcome is decided in this order: cancelled exactly when `error` is truthy; missing parameters exactly when there is no error but `code` or `state` is missing or empty; connected exactly when the parameters pass, the settings are present and both calls succeed; failed in every other case; calls happen only past the parameter and settings checks, and the patch happens only after a successful exchange; a stored-nothing-after-exchange state is never reported on its own |
| `Callback.CancelledBeforeAnyCall` | app/api/strava/callback/route.ts:63-79 | a truthy `error` gives the cancelled 400 page with an empty call trace, whatever else the request holds |
| `Callback.MissingParametersMakeNoCall` | app/api/strava/callback/route.ts:81-96 | a missing or empty `code` or `state` gives a 400 with no call |
| `Callback.MissingSettingBlocksExchange` | app/api/strava/callback/route.ts:99-112 | once the parameters pass, a missing setting is the configuration-error 500 and no exchange is attempted |
| `Callback.NoPatchAfterFailedExchange` | app/api/strava/callback/route.ts:115-127 | after a failed exchange the trace holds no patch; the outcome is a 500 whose message comes from the exchange, after exactly one call |
| `Callback.SuccessfulExchangePatchesState` | app/api/strava/callback/route.ts:115-127 | after a successful exchange the trace is exactly the exchange followed by one patch, and that patch targets the record named by `state` with the token fields |
| `Callback.ExchangeFormIsCodeGrant` | app/api/strava/callback/route.ts:14-19 | the exchange form is the authorization-code grant: it carries the received code and the client's credentials |
| `Callback.ConnectedRecord` | app/api/strava/callback/route.ts:118-124 | after connecting, the record holds each token value from the response when it is truthy and null otherwise, and holds `now` as the connection time |
| `Callback.ConnectFieldsDistinct` | app/api/strava/callback/route.ts:118-124 | the connect patch writes five different fields |
| `Callback.FailuresDistinguishedByPrefix` | app/api/strava/callback/route.ts:29-49 | a non-ok exchange and a non-ok patch both end in a 500, and only the message prefix tells them apart |
| `Callback.DetailText` | app/api/strava/callback/route.ts:164 | only the cancelled and failure pages show an input-derived text, and with the escape applied that text never contains `<` |
| `Callback.DetailTextReadsBack` | app/api/strava/callback/route.ts:164 | the page text is the reported error or message itself: for text without `&`, undoing the escape gives it back |
| `Callback.FailedPatchKeepsMessage` | app/api/strava/callback/route.ts:47-50 | a failed patch after a successful exchange is a 500 carrying the patch's full message: prefix, status and text of a non-ok response, or the thrown message |
| `Callback.ThrownPatchLooksLikeFailedExchange` | app/api/strava/callback/route.ts:115-127 | as written, a patch that throws after a successful exchange gives the same page as an exchange that threw the same message, although the trace shows the tokens were issued |
| `Callback.HandleCallbackCorrected` | app/api/strava/callback/route.ts:115-154 | the corrected handler reports a failed store write after a successful exchange as its own 500 outcome, and otherwise answers and calls exactly as written |
| `Callback.StoreFailureReportedDistinctly` | app/api/strava/callback/route.ts:115-154 | with the correction, a failed store write after a successful exchange never gives the same page as a failed exchange, whatever the messages |
| `Callback.CancelledPageReflectsMarkup` | app/api/strava/callback/route.ts:70 | as written, an `error` of `<script>` reaches the cancelled page unescaped |
| `Callback.DetailTextHasNoMarkup` | app/api/strava/callback/route.ts:151-173 | with the escape applied, no page of the handler carries a `<` taken from its input |
| `Refresh.Defined` | app/api/strava/refresh/route.ts:49-56 | serialising one property: the body has the key exactly when the value is defined, a lookup of the key gives the response's value, and no other key appears |
| `Refresh.RefreshStravaToken` | app/api/strava/refresh/route.ts:16-63 | a user without a truthy refresh token fails with "No refresh token available" and no call; otherwise the refresh-token grant comes first, a patch follows only after a successful refresh, success means both calls succeeded, and a failure carries the failing call's full message: its own prefix, the status and the response text, or the thrown error's message |
| `Refresh.RefreshPatchesOwnRecord` | app/api/strava/refresh/route.ts:41-57 | after a successful refresh the trace is the refresh call followed by one patch of the user's own record |
| `Refresh.RefreshFormIsRefreshGrant` | app/api/strava/refresh/route.ts:21-25 | the form is the refresh-token grant carrying the user's stored refresh token and the client's id and secret |
| `Refresh.RefreshFieldValue` | app/api/strava/refresh/route.ts:49-56 | the refresh patch writes each token field exactly when the response has it, with the response's value, always writes the refresh time, and writes no other key |
| `Refresh.RefreshLeavesAthlete` | app/api/strava/refresh/route.ts:49-56 | the refresh patch never writes the athlete id or the connection time |
| `Refresh.RefreshFieldsDistinct` | app/api/strava/refresh/route.ts:49-56 | no key is written twice by the refresh patch |
| `Refresh.RefreshedRecord` | app/api/strava/refresh/route.ts:41-57 | on the stored record a refresh keeps the athlete id and connection time, replaces the refresh token with the rotated one, and records the refresh time |
| `Refresh.Visit` | app/api/strava/refresh/route.ts:112-139 | one user's line carries the user's id; it is skipped exactly when the refresh token is missing or empty, with no call; it succeeds exactly when both calls succeed; an error line carries the refresh's failure message |
| `Refresh.Fold` | app/api/strava/refresh/route.ts:104-140 | the loop yields one line per user, in order, each line being the user's own line; the counters are the numbers of success and error lines |
| `Refresh.CountPartition` | app/api/strava/refresh/route.ts:104-140 | every line is exactly one of success, error or skipped |
| `Refresh.FoldCallsSplit` | app/api/strava/refresh/route.ts:112-140 | users are processed one after another: the calls of a batch are the first part's calls followed by the rest's |
| `Refresh.Sweep` | app/api/strava/refresh/route.ts:65-160 | a missing setting is a configuration error with no call; otherwise the first call is the list query with the expiry filter and page size 50; the sweep completes exactly when the list query succeeds; its total and number of lines equal the number of listed records, with missing `records` counted as none |
| `Refresh.ReportInvariants` | app/api/strava/refresh/route.ts:100-140 | the report has one line per listed user, in list order and with that user's id; the counters count the lines; refreshed plus errors plus skipped equals the total |
| `Refresh.UserLinesIndependent` | app/api/strava/refresh/route.ts:112-139 | each user's line depends only on that user's record and that user's calls, whatever the others' calls answered |
| `Refresh.SuccessWheneverListSucceeds` | app/api/strava/refresh/route.ts:142-146 | once the list query succeeds, the response is a 200 with `success: true`, whatever the per-user failures |
| `Refresh.ListFailureIsFatal` | app/api/strava/refresh/route.ts:94-158 | a failed list query is a 500 with `success: false`, and no other call is made |
| `Refresh.ConfigErrorBeforeList` | app/api/strava/refresh/route.ts:68-81 | a missing setting is a 500 before any call |
| `Refresh.RotationExample` | app/api/strava/refresh/route.ts:49-56 | refresh token r1 answered with a2, r2 and 2000 is written back as exactly those values plus the refresh time |
| `Start.RedirectUri` | app/api/strava/start/route.ts:26-28 | the redirect URI starts with the forwarded protocol, or `https` when that header is missing or empty, followed by `://` |
| `Start.RedirectUriShape` | app/api/strava/start/route.ts:26-28 | the redirect URI is the forwarded scheme, or `https` when that header is missing or empty, then `://`, the host (the text `null` when the host header is missing) and the callback path |
| `Start.RemoveParam` | app/api/strava/start/route.ts:32-37 | after removal the key has no value and every other key keeps its value |
| `Start.SetParam` | app/api/strava/start/route.ts:32-37 | `URLSearchParams.set`: afterwards the key has the new value, and every other key keeps its value |
| `Start.SetParamAppends` | app/api/strava/start/route.ts:32-37 | setting a key the query does not yet have appends the pair at the end |
| `Start.AuthorizeParamsExact` | app/api/strava/start/route.ts:31-37 | the six `set` calls yield exactly client_id, response_type=code, redirect_uri, approval_prompt=auto, scope and state, in that order |
| `Start.HandleStart` | app/api/strava/start/route.ts:3-39 | checks run in this order: a 400 exactly when `state` is missing or empty; a 400 exactly when it does not start with `rec`; a 500 exactly when the state passes but the client id is missing; otherwise a redirect to the authorization endpoint with exactly the six parameters |
| `Start.RedirectCarriesState` | app/api/strava/start/route.ts:32-37 | the redirect query gives back the state unchanged, the configured client id, and the redirect URI |
| `Start.StartStatusCodes` | app/api/strava/start/route.ts:8-39 | a missing or empty state and a state not starting with `rec` are 400s, a missing client id after that is a 500, and otherwise the answer is the 307 redirect |
| `Start.AcceptedStateIsRecordId` | app/api/strava/start/route.ts:8-18 | an accepted state is a string of at least three characters beginning with `rec` |
| `Flow.StateNamesPatchedRecord` | app/api/strava/callback/route.ts:115-127 | a state accepted at the start and echoed back by the authorization server with a code names the record the callback patches: a `rec…` record id |

## Left out

- Network calls, HTTP methods and headers, and JSON parsing are not modelled.
  Each call is an oracle answer. `Threw` covers a rejected request and a body
  that does not parse.
- The Airtable URL (base id, table name, `Authorization` header) is not
  modelled. The trace records only the record id, the fields and the filter.
- The record store's evaluation of the filter formula is not modelled. The
  listed users are an input, and the model does not constrain whether they
  match the filter.
- A JSON body that is not an object, where property access would throw a
  `TypeError`, is not modelled. Such a failure is one more `Threw`.
- A thrown value that is not an `Error` instance (message "Unknown error") is not modelled. Every failure the handlers can meet is an `Error`.
- JSON numbers are integers: NaN and fractional values are not modelled. `0` is falsy, as in the source.
- `Refresh.User`: the listed fields `strava_token_expires_at` and `strava_athlete_id` are carried but never read, as in the source.
- `timestamp` properties in the sweep's JSON body are not modelled. Separate `new Date()` readings within one request are one `now`.
- Percent-encoding by `URL`, `URLSearchParams` and `encodeURIComponent` is not
  modelled, and neither is the serialised redirect URL. `Start.Scope` is the
  already-encoded scope string. `URLSearchParams` encodes it a second time when
  serialising, and that second encoding is not modelled.
- The start handler's `catch` (a 500 "Error starting Strava OAuth") is not
  modelled. With a valid request URL nothing in its body throws.
- Console logging, the HTML and JSON page bodies beyond outcome and status code, and `app/page.tsx` (static UI) are not modelled.
- Per-user answers to the sweep's calls are indexed by position in the listed batch. A lookup by user id would not let two listed records share an id.
- The sweep's error lines share the gap of the second finding below: a patch that throws after a successful refresh reads like a refresh that threw the same message. The sweep is kept as written; only the callback has a corrected counterpart.

## Findings

| source | as written | input that shows it | evidently intended | confidence | as-written member | corrected member |
|---|---|---|---|---|---|---|
| app/api/strava/callback/route.ts:70 | the cancelled page interpolates the `error` query parameter into HTML unescaped, while the failure page escapes `<` (line 164) | `GET /api/strava/callback?error=<script>` | the cancelled page escapes `<` like the failure page, so no page carries markup taken from the query | not executed | `Callback.CancelledPageReflectsMarkup` | `Callback.DetailTextHasNoMarkup` |
| app/api/strava/callback/route.ts:151-154 | every thrown error becomes the same failure page keyed only by its message; a patch that throws after the exchange succeeded (request rejected, or the success body at line 52 not parsing) gives the page an exchange throwing the same message gives | exchange answers with tokens, then the patch request rejects with `fetch failed`; compare with the exchange itself rejecting with `fetch failed` | tokens issued but not stored are reported as a failure of their own, distinct from a failed exchange | not executed | `Callback.ThrownPatchLooksLikeFailedExchange` | `Callback.StoreFailureReportedDistinctly` |

=== FILE: callback.dfy ===
/**
  The OAuth redirect target (`GET /api/strava/callback`): the authorization
  server sends the user back with `code` and `state` (or `error`); the handler
  exchanges the code for tokens (section 4.1.3 of RFC 6749) and stores them in
  the users-table record whose id is `state`.
 */
module Callback {
  import opened Js
  import opened External
  import Html
  import Store

  /** The query parameters of the redirect. */
  datatype Query = Query(code: Option<string>, state: Option<string>, error: Option<string>)

  /** The page the handler answers with. */
  datatype Outcome =
    | Cancelled(error: string)     // the user declined (section 4.1.2.1 of RFC 6749)
    | MissingParameters            // no code or no state
    | Failed(message: string)      // any thrown error, caught by the handler
    | Connected                    // tokens exchanged and stored
    | NotStored(message: string)   // tokens issued but the record not updated (corrected handler only)

  function StatusCode(o: Outcome): nat {
    match o
    case Connected => 200
    case Failed(_) => 500
    case NotStored(_) => 500
    case Cancelled(_) => 400
    case MissingParameters => 400
  }

  const ConfigErrorMessage := "Server configuration error"

  /** The query gets past both parameter checks. */
  predicate ParamsOk(q: Query) {
    !Present(q.error) && Present(q.code) && Present(q.state)
  }

  /** The form of the authorization-code grant. */
  function ExchangeForm(s: Settings, code: string): seq<Param> {
    [ Param("client_id", s.clientId),
      Param("client_secret", s.clientSecret),
      Param("code", code),
      Param("grant_type", "authorization_code") ]
  }

  /** The record fields written after a successful exchange; falsy token values become null. */
  function ConnectFields(t: TokenResponse, now: string): seq<Field> {
    [ Field("strava_athlete_id", OrNull(t.athleteId)),
      Field("strava_access_token", OrNull(t.accessToken)),
      Field("strava_refresh_token", OrNull(t.refreshToken)),
      Field("strava_token_expires_at", OrNull(t.expiresAt)),
      Field("strava_connected_at", JStr(now)) ]
  }

  /**
    The handler. `now` is the ISO time of the request, `exchange` and `patch`
    what the token endpoint and the record store answer if they are called.
   */
  function HandleCallback(q: Query, env: Env, now: string,
                          exchange: CallResult<TokenResponse>, patch: CallResult<()>): (r: Run<Outcome>)
    ensures r.outcome.Cancelled? <==> Present(q.error)
    ensures r.outcome.MissingParameters? <==> !Present(q.error) && (!Present(q.code) || !Present(q.state))
    ensures r.outcome.Connected? <==> ParamsOk(q) && Configured(env) && exchange.Ok? && patch.Ok?
    ensures r.outcome.Failed? <==> ParamsOk(q) && !(Configured(env) && exchange.Ok? && patch.Ok?)
    ensures r.calls != [] ==> ParamsOk(q) && Configured(env)
    ensures |r.calls| == 2 <==> ParamsOk(q) && Configured(env) && exchange.Ok?
    ensures !r.outcome.NotStored?
  {
    if Present(q.error) then Run(Cancelled(q.error.value), [])
    else if !Present(q.code) || !Present(q.state) then Run(MissingParameters, [])
    else match Validate(env)
      case None => Run(Failed(ConfigErrorMessage), [])
      case Some(s) =>
        var exchangeCall := TokenRequest(ExchangeForm(s, q.code.value));
        if !exchange.Ok? then
          Run(Failed(ErrorMessage(ExchangeFailedPrefix, exchange)), [exchangeCall])
        else
          var patchCall := Patch(q.state.value, ConnectFields(exchange.value, now));
          if !patch.Ok? then
            Run(Failed(ErrorMessage(UpdateFailedPrefix, patch)), [exchangeCall, patchCall])
          else
            Run(Connected, [exchangeCall, patchCall])
  }

  /** A truthy `error` ends the request as cancelled before anything else is looked at. */
  lemma CancelledBeforeAnyCall(q: Query, env: Env, now: string,
                               exchange: CallResult<TokenResponse>, patch: CallResult<()>)
    requires Present(q.error)
    ensures HandleCallback(q, env, now, exchange, patch) == Run(Cancelled(q.error.value), [])
    ensures StatusCode(HandleCallback(q, env, now, exchange, patch).outcome) == 400
  {
  }

  /** A missing or empty `code` or `state` is a bad request and makes no call. */
  lemma MissingParametersMakeNoCall(q: Query, env: Env, now: string,
                                    exchange: CallResult<TokenResponse>, patch: CallResult<()>)
    requires !Present(q.error)
    requires !Present(q.code) || !Present(q.state)
    ensures HandleCallback(q, env, now, exchange, patch) == Run(MissingParameters, [])
    ensures StatusCode(HandleCallback(q, env, now, exchange, patch).outcome) == 400
  {
  }

  /**
    With both parameters present, a missing setting is a 500 and no exchange
    is attempted, whatever the exchange would have answered.
   */
  lemma MissingSettingBlocksExchange(q: Query, env: Env, now: string,
                                     exchange: CallResult<TokenResponse>, patch: CallResult<()>)
    requires ParamsOk(q)
    requires !Configured(env)
    ensures HandleCallback(q, env, now, exchange, patch) == Run(Failed(ConfigErrorMessage), [])
    ensures StatusCode(HandleCallback(q, env, now, exchange, patch).outcome) == 500
  {
  }

  /** A failed exchange ends in a 500 after exactly one call, the exchange; nothing is patched. */
  lemma NoPatchAfterFailedExchange(q: Query, env: Env, now: string,
                                   exchange: CallResult<TokenResponse>, patch: CallResult<()>)
    requires !exchange.Ok?
    ensures forall c :: c in HandleCallback(q, env, now, exchange, patch).calls ==> !c.Patch?
    ensures ParamsOk(q) && Configured(env) ==>
      HandleCallback(q, env, now, exchange, patch) ==
        Run(Failed(ErrorMessage(ExchangeFailedPrefix, exchange)),
            [TokenRequest(ExchangeForm(Validate(env).value, q.code.value))])
  {
  }

  /**
    After a successful exchange exactly one patch is issued, after the
    exchange, to the record named by `state`, carrying the token fields.
   */
  lemma SuccessfulExchangePatchesState(q: Query, env: Env, now: string,
                                       t: TokenResponse, patch: CallResult<()>)
    requires ParamsOk(q) && Configured(env)
    ensures HandleCallback(q, env, now, Ok(t), patch).calls ==
      [ TokenRequest(ExchangeForm(Validate(env).value, q.code.value)),
        Patch(q.state.value, ConnectFields(t, now)) ]
  {
  }

  /**
    A failed patch after a successful exchange ends in a 500 carrying the
    patch's full message: the record-update prefix, status and text of a
    non-ok response, or the thrown error's own message.
   */
  lemma FailedPatchKeepsMessage(q: Query, env: Env, now: string, t: TokenResponse, patch: CallResult<()>)
    requires ParamsOk(q) && Configured(env)
    requires !patch.Ok?
    ensures HandleCallback(q, env, now, Ok(t), patch).outcome == Failed(ErrorMessage(UpdateFailedPrefix, patch))
    ensures StatusCode(HandleCallback(q, env, now, Ok(t), patch).outcome) == 500
  {
  }

  /** The grant sent to the token endpoint is the authorization-code grant for the received code. */
  lemma ExchangeFormIsCodeGrant(s: Settings, code: string)
    ensures ParamValue(ExchangeForm(s, code), "grant_type") == Some("authorization_code")
    ensures ParamValue(ExchangeForm(s, code), "code") == Some(code)
    ensures ParamValue(ExchangeForm(s, code), "client_id") == Some(s.clientId)
    ensures ParamValue(ExchangeForm(s, code), "client_secret") == Some(s.clientSecret)
  {
    var form := ExchangeForm(s, code);
    ParamValueAt(form, 0);
    ParamValueAt(form, 1);
    ParamValueAt(form, 2);
    ParamValueAt(form, 3);
  }

  /**
    The stored record after connecting: each token field holds the response's
    value when truthy and null otherwise, and the connection time is `now`
    (every other field is kept, by `Store.ApplyPatch`).
   */
  lemma ConnectedRecord(rec: Store.Record, t: TokenResponse, now: string)
    ensures Store.Holds(Store.ApplyPatch(rec, ConnectFields(t, now)), "strava_athlete_id", OrNull(t.athleteId))
    ensures Store.Holds(Store.ApplyPatch(rec, ConnectFields(t, now)), "strava_access_token", OrNull(t.accessToken))
    ensures Store.Holds(Store.ApplyPatch(rec, ConnectFields(t, now)), "strava_refresh_token", OrNull(t.refreshToken))
    ensures Store.Holds(Store.ApplyPatch(rec, ConnectFields(t, now)), "strava_token_expires_at", OrNull(t.expiresAt))
    ensures Store.Holds(Store.ApplyPatch(rec, ConnectFields(t, now)), "strava_connected_at", JStr(now))
  {
    var fs := ConnectFields(t, now);
    var r := Store.ApplyPatch(rec, fs);
    ConnectFieldsDistinct(t, now);
    assert Store.Holds(r, "strava_athlete_id", OrNull(t.athleteId)) by { Store.PatchedField(rec, fs, 0); }
    assert Store.Holds(r, "strava_access_token", OrNull(t.accessToken)) by { Store.PatchedField(rec, fs, 1); }
    assert Store.Holds(r, "strava_refresh_token", OrNull(t.refreshToken)) by { Store.PatchedField(rec, fs, 2); }
    assert Store.Holds(r, "strava_token_expires_at", OrNull(t.expiresAt)) by { Store.PatchedField(rec, fs, 3); }
    assert Store.Holds(r, "strava_connected_at", JStr(now)) by { Store.PatchedField(rec, fs, 4); }
  }

  lemma ConnectFieldsDistinct(t: TokenResponse, now: string)
    ensures DistinctKeys(ConnectFields(t, now))
  {
  }

  /**
    A failed exchange and a failed patch both end in a 500, told apart only
    by the message: a non-ok exchange response gives the token-exchange
    prefix, a non-ok patch response the record-update prefix.
   */
  lemma FailuresDistinguishedByPrefix(q: Query, env: Env, now: string,
                                      exchange: CallResult<TokenResponse>, patch: CallResult<()>)
    requires ParamsOk(q) && Configured(env)
    ensures exchange.HttpError? ==>
      var o := HandleCallback(q, env, now, exchange, patch).outcome;
      o.Failed? && StartsWith(o.message, ExchangeFailedPrefix) && !StartsWith(o.message, UpdateFailedPrefix)
    ensures exchange.Ok? && patch.HttpError? ==>
      var o := HandleCallback(q, env, now, exchange, patch).outcome;
      o.Failed? && StartsWith(o.message, UpdateFailedPrefix) && !StartsWith(o.message, ExchangeFailedPrefix)
  {
    assert ExchangeFailedPrefix[0] != UpdateFailedPrefix[0];
  }

  /**
    The text each page interpolates into its HTML, as written: the failure
    page escapes `<` in the message, the cancelled page shows `error` verbatim.
   */
  function DetailTextAsWritten(o: Outcome): Option<string> {
    match o
    case Cancelled(e) => Some(e)
    case Failed(m) => Some(Html.EscapeLt(m))
    case _ => None
  }

  /** The same text with the cancelled page escaped like the failure page. */
  function DetailText(o: Outcome): (r: Option<string>)
    ensures r.Some? <==> o.Cancelled? || o.Failed? || o.NotStored?
    ensures r.Some? ==> '<' !in r.value
  {
    match o
    case Cancelled(e) => Some(Html.EscapeLt(e))
    case Failed(m) => Some(Html.EscapeLt(m))
    case NotStored(m) => Some(Html.EscapeLt(m))
    case _ => None
  }

  /**
    The escaped page text is the message itself: for text without `&`,
    turning `&lt;` back into `<` gives the error or message the page reports.
   */
  lemma DetailTextReadsBack(o: Outcome)
    ensures o.Cancelled? && '&' !in o.error ==> Html.UnescapeLt(DetailText(o).value) == o.error
    ensures o.Failed? && '&' !in o.message ==> Html.UnescapeLt(DetailText(o).value) == o.message
    ensures o.NotStored? && '&' !in o.message ==> Html.UnescapeLt(DetailText(o).value) == o.message
  {
    match o
    case Cancelled(e) =>
      if '&' !in e { Html.UnescapeEscape(e); }
    case Failed(m) =>
      if '&' !in m { Html.UnescapeEscape(m); }
    case NotStored(m) =>
      if '&' !in m { Html.UnescapeEscape(m); }
    case _ =>
  }

  /** As written, an `error` parameter carrying markup reaches the cancelled page unchanged. */
  lemma CancelledPageReflectsMarkup(env: Env, now: string,
                                    exchange: CallResult<TokenResponse>, patch: CallResult<()>)
    ensures var o := HandleCallback(Query(None, None, Some("<script>")), env, now, exchange, patch).outcome;
      DetailTextAsWritten(o) == Some("<script>") && '<' in DetailTextAsWritten(o).value
  {
  }

  /** With the escape applied, no page of the handler carries a `<` taken from its input. */
  lemma DetailTextHasNoMarkup(q: Query, env: Env, now: string,
                              exchange: CallResult<TokenResponse>, patch: CallResult<()>)
    ensures var d := DetailText(HandleCallback(q, env, now, exchange, patch).outcome);
      d.Some? ==> '<' !in d.value
  {
  }

  /**
    As written, a patch that throws after a successful exchange (the request
    rejected, or the store's success body not parsing) gives the same page as
    an exchange that threw the same message: the issued tokens that were not
    stored cannot be told from no tokens at all.
   */
  lemma ThrownPatchLooksLikeFailedExchange(q: Query, env: Env, now: string, t: TokenResponse,
                                           m: string, patch: CallResult<()>)
    requires ParamsOk(q) && Configured(env)
    ensures HandleCallback(q, env, now, Ok(t), Threw(m)).calls != []
    ensures HandleCallback(q, env, now, Ok(t), Threw(m)).calls[|HandleCallback(q, env, now, Ok(t), Threw(m)).calls| - 1].Patch?
    ensures HandleCallback(q, env, now, Ok(t), Threw(m)).outcome ==
            HandleCallback(q, env, now, Threw(m), patch).outcome
  {
  }

  /**
    The handler with the inconsistent state reported on its own: a failed
    patch after a successful exchange is `NotStored`; everything else, calls
    included, is as in `HandleCallback`.
   */
  function HandleCallbackCorrected(q: Query, env: Env, now: string,
                                   exchange: CallResult<TokenResponse>, patch: CallResult<()>): (r: Run<Outcome>)
    ensures r.calls == HandleCallback(q, env, now, exchange, patch).calls
    ensures r.outcome.NotStored? <==> ParamsOk(q) && Configured(env) && exchange.Ok? && !patch.Ok?
    ensures !r.outcome.NotStored? ==> r.outcome == HandleCallback(q, env, now, exchange, patch).outcome
    ensures r.outcome.NotStored? ==> StatusCode(r.outcome) == 500
  {
    var written := HandleCallback(q, env, now, exchange, patch);
    if ParamsOk(q) && Configured(env) && exchange.Ok? && !patch.Ok? then
      Run(NotStored(ErrorMessage(UpdateFailedPrefix, patch)), written.calls)
    else written
  }

  /**
    Corrected: whatever the messages, a failed store write after a successful
    exchange never gives the same page as a failed exchange, and the trace
    then ends with the patch that failed.
   */
  lemma StoreFailureReportedDistinctly(q: Query, env: Env, now: string, t: TokenResponse,
                                       exchange: CallResult<TokenResponse>,
                                       patch: CallResult<()>, otherPatch: CallResult<()>)
    requires ParamsOk(q) && Configured(env)
    requires !exchange.Ok? && !patch.Ok?
    ensures HandleCallbackCorrected(q, env, now, Ok(t), patch).outcome !=
            HandleCallbackCorrected(q, env, now, exchange, otherPatch).outcome
    ensures HandleCallbackCorrected(q, env, now, Ok(t), patch).calls ==
            [ TokenRequest(ExchangeForm(Validate(env).value, q.code.value)),
              Patch(q.state.value, ConnectFields(t, now)) ]
  {
  }
}

=== FILE: external.dfy ===
/**
  The vocabulary shared by the three route handlers: the external calls they
  make (token endpoint, record store), what each call can answer, the process
  environment, and the error messages a failed call turns into.
 */
module External {
  import opened Js

  /** A name/value pair of a form body or a query string. */
  datatype Param = Param(key: string, value: string)

  /** One field of a record-store patch body. */
  datatype Field = Field(key: string, value: Json)

  /** A record-store filter formula: `{field} < bound` (strict). */
  datatype Filter = FieldLessThan(field: string, bound: int)

  /** An external call, in the order the handler issues it. */
  datatype Call =
    | TokenRequest(form: seq<Param>)                  // POST to the authorization server's token endpoint
    | Patch(recordId: string, fields: seq<Field>)     // PATCH of one users-table record
    | ListRecords(filter: Filter, pageSize: nat)      // GET of the users table, filtered

  /**
    What an external call answers: a successful, parsed response; a response
    whose status is not ok, with its status and text; or a thrown error (the
    request itself rejected, or the body did not parse), with its message.
   */
  datatype CallResult<+T> = Ok(value: T) | HttpError(status: nat, body: string) | Threw(message: string)

  /** A handler's outcome together with the external calls it made, in order. */
  datatype Run<+O> = Run(outcome: O, calls: seq<Call>)

  /**
    The token endpoint's JSON response. Each property may be missing (`None`);
    `athleteId` is the value of `athlete?.id`.
   */
  datatype TokenResponse = TokenResponse(
    accessToken: Option<Json>,
    refreshToken: Option<Json>,
    expiresAt: Option<Json>,
    athleteId: Option<Json>)

  /** The five environment variables the handlers read. */
  datatype Env = Env(
    stravaClientId: Option<string>,
    stravaClientSecret: Option<string>,
    airtableToken: Option<string>,
    airtableBaseId: Option<string>,
    airtableUsersTable: Option<string>)

  /** The same settings once each is known to be set and non-empty. */
  datatype Settings = Settings(
    clientId: string,
    clientSecret: string,
    airtableToken: string,
    baseId: string,
    usersTable: string)

  /** Every required environment variable is truthy. */
  predicate Configured(env: Env) {
    && Present(env.stravaClientId)
    && Present(env.stravaClientSecret)
    && Present(env.airtableToken)
    && Present(env.airtableBaseId)
    && Present(env.airtableUsersTable)
  }

  /** The required-variable check: settings exactly when all five are truthy. */
  function Validate(env: Env): (r: Option<Settings>)
    ensures r.Some? <==> Configured(env)
    ensures r.Some? ==> Some(r.value.clientId) == env.stravaClientId
    ensures r.Some? ==> Some(r.value.clientSecret) == env.stravaClientSecret
  {
    if Configured(env) then
      Some(Settings(
        env.stravaClientId.value,
        env.stravaClientSecret.value,
        env.airtableToken.value,
        env.airtableBaseId.value,
        env.airtableUsersTable.value))
    else None
  }

  const ExchangeFailedPrefix := "Strava token exchange failed: "
  const RefreshFailedPrefix := "Strava refresh failed: "
  const UpdateFailedPrefix := "Airtable update failed: "
  const ListFailedPrefix := "Airtable list failed: "

  /**
    The message of the error a failed call ends in: a non-ok response throws
    `prefix + status + " " + text`; a thrown error keeps its own message.
   */
  function ErrorMessage<T>(prefix: string, r: CallResult<T>): (m: string)
    requires !r.Ok?
    ensures r.HttpError? ==> StartsWith(m, prefix)
    ensures r.HttpError? ==> m[|prefix|..] == NatToString(r.status) + " " + r.body
    ensures r.Threw? ==> m == r.message
  {
    if r.HttpError? then prefix + NatToString(r.status) + " " + r.body else r.message
  }

  /**
    The message of a non-ok response carries the status and the response text:
    after the prefix, the digits up to the first space read back as the status,
    and the rest is the text.
   */
  lemma ErrorMessageCarriesResponse<T>(prefix: string, r: CallResult<T>)
    requires r.HttpError?
    ensures var m := ErrorMessage(prefix, r);
      var n := |prefix| + |NatToString(r.status)|;
      && n < |m|
      && DigitsValue(m[|prefix|..n]) == r.status
      && ' ' !in m[|prefix|..n]
      && m[n] == ' '
      && m[n + 1..] == r.body
  {
    var m := ErrorMessage(prefix, r);
    var d := NatToString(r.status);
    var n := |prefix| + |d|;
    assert m == prefix + d + " " + r.body;
    assert m[|prefix|..n] == d;
    assert m[n + 1..] == r.body;
    NatToStringValue(r.status);
  }

  /** The value of the first parameter named `key` (`URLSearchParams.get`). */
  function ParamValue(ps: seq<Param>, key: string): Option<string>
    decreases |ps|
  {
    if ps == [] then None
    else if ps[0].key == key then Some(ps[0].value)
    else ParamValue(ps[1..], key)
  }

  /** A parameter no earlier parameter shadows is the one a lookup of its key finds. */
  lemma {:induction false} ParamValueAt(ps: seq<Param>, i: nat)
    requires i < |ps|
    requires forall j :: 0 <= j < i ==> ps[j].key != ps[i].key
    ensures ParamValue(ps, ps[i].key) == Some(ps[i].value)
    decreases i
  {
    if i > 0 {
      assert ps[1..][i - 1] == ps[i];
      ParamValueAt(ps[1..], i - 1);
    }
  }

  /** The value of the first field named `key`. */
  function FieldValue(fields: seq<Field>, key: string): Option<Json>
    decreases |fields|
  {
    if fields == [] then None
    else if fields[0].key == key then Some(fields[0].value)
    else FieldValue(fields[1..], key)
  }

  /** The keys a patch writes. */
  function FieldKeys(fields: seq<Field>): (keys: set<string>)
    ensures forall i :: 0 <= i < |fields| ==> fields[i].key in keys
    ensures forall k :: k in keys ==> exists i :: 0 <= i < |fields| && fields[i].key == k
    decreases |fields|
  {
    if fields == [] then {} else {fields[0].key} + FieldKeys(fields[1..])
  }

  /** A key no field has is not among the keys. */
  lemma {:induction false} FieldValueAbsent(fields: seq<Field>, key: string)
    requires FieldValue(fields, key) == None
    ensures key !in FieldKeys(fields)
    decreases |fields|
  {
    if fields != [] {
      FieldValueAbsent(fields[1..], key);
    }
  }

  /** No two fields of a patch share a key. */
  predicate DistinctKeys(fields: seq<Field>) {
    forall i, j :: 0 <= i < j < |fields| ==> fields[i].key != fields[j].key
  }
}

=== FILE: flow.dfy ===
/**
  The two halves of the authorization-code flow together: the state the
  start handler accepts is sent to the authorization server, which returns
  it unchanged with the code (section 4.1.2 of RFC 6749); the callback then
  writes the tokens into the record that state names.
 */
module Flow {
  import opened Js
  import opened External
  import Start
  import Callback

  /**
    A state accepted at the start, echoed back by the authorization server
    with a code, names the record the callback patches once the exchange
    succeeds: a users-table record id.
   */
  lemma StateNamesPatchedRecord(req: Start.Request, env: Env, code: string, now: string,
                                t: TokenResponse, patch: CallResult<()>)
    requires Start.HandleStart(req, env).Redirect?
    requires Configured(env)
    requires code != []
    ensures var echoed := ParamValue(Start.HandleStart(req, env).params, "state");
      var r := Callback.HandleCallback(Callback.Query(Some(code), echoed, None), env, now, Ok(t), patch);
      && |r.calls| == 2
      && r.calls[1] == Patch(req.state.value, Callback.ConnectFields(t, now))
      && StartsWith(r.calls[1].recordId, Start.RecordIdPrefix)
  {
    Start.RedirectCarriesState(req, env);
    var q := Callback.Query(Some(code), req.state, None);
    Callback.SuccessfulExchangePatchesState(q, env, now, t, patch);
  }
}

=== FILE: html.dfy ===
/**
  The one piece of escaping the callback pages perform: every `<` of a message
  shown as technical details becomes `&lt;` (a global replace).
 */
module Html {

  /** Number of occurrences of `c` in `s`. */
  function Occurrences(s: string, c: char): nat
    decreases |s|
  {
    if s == [] then 0 else (if s[0] == c then 1 else 0) + Occurrences(s[1..], c)
  }

  /** `s.replace(/</g, "&lt;")`. */
  function EscapeLt(s: string): (r: string)
    ensures '<' !in r
    ensures '<' !in s ==> r == s
    decreases |s|
  {
    if s == [] then []
    else
      assert s == [s[0]] + s[1..];
      (if s[0] == '<' then "&lt;" else [s[0]]) + EscapeLt(s[1..])
  }

  /** The inverse replacement: every `&lt;` becomes `<`, scanning left to right. */
  function UnescapeLt(s: string): string
    decreases |s|
  {
    if s == [] then []
    else if |s| >= 4 && s[..4] == "&lt;" then "<" + UnescapeLt(s[4..])
    else [s[0]] + UnescapeLt(s[1..])
  }

  /** The replacement is global: it acts on each part of a concatenation separately. */
  lemma {:induction false} EscapeLtConcat(a: string, b: string)
    ensures EscapeLt(a + b) == EscapeLt(a) + EscapeLt(b)
    decreases |a|
  {
    if a == [] {
      assert a + b == b;
    } else {
      assert (a + b)[0] == a[0];
      assert (a + b)[1..] == a[1..] + b;
      EscapeLtConcat(a[1..], b);
    }
  }

  /** Each `<` grows by three characters; nothing else changes length. */
  lemma {:induction false} EscapeLtLength(s: string)
    ensures |EscapeLt(s)| == |s| + 3 * Occurrences(s, '<')
    decreases |s|
  {
    if s != [] {
      EscapeLtLength(s[1..]);
    }
  }

  lemma UnescapeEntity(rest: string)
    ensures UnescapeLt("&lt;" + rest) == "<" + UnescapeLt(rest)
  {
    var e := "&lt;" + rest;
    assert e[..4] == "&lt;";
    assert e[4..] == rest;
  }

  lemma UnescapePlain(c: char, rest: string)
    requires c != '&'
    ensures UnescapeLt([c] + rest) == [c] + UnescapeLt(rest)
  {
    var e := [c] + rest;
    assert e[0] == c;
    assert |e| >= 4 ==> e[..4][0] == c;
    assert e[1..] == rest;
  }

  /** Escaping loses nothing for a message without `&`: unescaping restores it. */
  lemma {:induction false} UnescapeEscape(s: string)
    requires '&' !in s
    ensures UnescapeLt(EscapeLt(s)) == s
    decreases |s|
  {
    if s != [] {
      assert s == [s[0]] + s[1..];
      assert '&' !in s[1..];
      UnescapeEscape(s[1..]);
      if s[0] == '<' {
        UnescapeEntity(EscapeLt(s[1..]));
      } else {
        UnescapePlain(s[0], EscapeLt(s[1..]));
      }
    }
  }
}

=== FILE: js.dfy ===
/**
  JavaScript value conventions the route handlers rely on: optional values
  (`string | null` from query strings, headers and the environment), JSON
  scalars with their truthiness, and the string operations the handlers use.
 */
module Js {

  /** An optional value: `null`/`undefined` is `None`. */
  datatype Option<+T> = None | Some(value: T) {

    /** The value, or `default` when there is none (`x ?? default`). */
    function GetOr(default: T): T {
      if Some? then value else default
    }
  }

  /** A JSON scalar as it appears in a response or a patch body. Numbers are integral. */
  datatype Json = JNull | JBool(b: bool) | JNum(n: int) | JStr(s: string)

  /** JavaScript truthiness of a JSON scalar: `null`, `false`, `0` and `""` are falsy. */
  predicate Truthy(v: Json) {
    match v
    case JNull => false
    case JBool(b) => b
    case JNum(n) => n != 0
    case JStr(s) => s != ""
  }

  /** Truthiness of a `string | null`: present and non-empty. */
  predicate Present(o: Option<string>) {
    o.Some? && o.value != ""
  }

  /** `v || null`, where `v` may be undefined. */
  function OrNull(v: Option<Json>): (r: Json)
    ensures Truthy(r) ==> v == Some(r)
    ensures !Truthy(r) ==> r == JNull
    ensures v.Some? && Truthy(v.value) ==> r == v.value
  {
    if v.Some? && Truthy(v.value) then v.value else JNull
  }

  /**
    `o || fallback` on a `string | null`: the result is the fallback or the
    value, a truthy value wins, and a truthy fallback makes the result truthy.
   */
  function OrDefault(o: Option<string>, fallback: string): (r: string)
    ensures r == fallback || (Present(o) && r == o.value)
    ensures Present(o) ==> r == o.value
    ensures fallback != "" ==> r != ""
  {
    if Present(o) then o.value else fallback
  }

  /** A `string | null` placed in a template literal: `null` renders as "null". */
  function Interpolate(o: Option<string>): string {
    match o
    case Some(s) => s
    case None => "null"
  }

  predicate StartsWith(s: string, prefix: string) {
    |prefix| <= |s| && s[..|prefix|] == prefix
  }

  function DigitChar(d: nat): (c: char)
    requires d < 10
    ensures '0' <= c <= '9'
  {
    ('0' as int + d) as char
  }

  /** Decimal rendering of a non-negative integer, as `${n}` produces it: digits only, no leading zero. */
  function NatToString(n: nat): (r: string)
    ensures |r| >= 1
    ensures forall i :: 0 <= i < |r| ==> '0' <= r[i] <= '9'
    ensures r[0] == '0' ==> n == 0
    decreases n
  {
    if n < 10 then [DigitChar(n)] else NatToString(n / 10) + [DigitChar(n % 10)]
  }

  /** The number a string of decimal digits denotes, most significant digit first. */
  function DigitsValue(s: string): int
    decreases |s|
  {
    if s == [] then 0 else 10 * DigitsValue(s[..|s| - 1]) + (s[|s| - 1] as int - '0' as int)
  }

  /** Reading the rendering back gives the number: the rendering loses nothing. */
  lemma {:induction false} NatToStringValue(n: nat)
    ensures DigitsValue(NatToString(n)) == n
    decreases n
  {
    var r := NatToString(n);
    if n < 10 {
      assert r[..0] == [];
    } else {
      assert r[..|r| - 1] == NatToString(n / 10);
      NatToStringValue(n / 10);
    }
  }
}

=== FILE: refresh.dfy ===
/**
  The renewal sweep (`GET /api/strava/refresh`): it lists the users whose
  access token expires within a day, refreshes each one's token with the
  refresh-token grant (section 6 of RFC 6749), stores the new tokens, and
  reports per user, one user's failure never stopping the others.
 */
module Refresh {
  import opened Js
  import opened External
  import Store

  /** A listed users-table record: its id and the fields the sweep reads. */
  datatype User = User(
    id: string,
    refreshToken: Option<string>,
    expiresAt: Option<int>,
    athleteId: Option<int>)

  const NoRefreshTokenMessage := "No refresh token available"

  /** How refreshing one user's token ends. */
  datatype RefreshOutcome = Refreshed | RefreshFailed(message: string)

  /** The form of the refresh-token grant. */
  function RefreshForm(s: Settings, token: string): seq<Param> {
    [ Param("client_id", s.clientId),
      Param("client_secret", s.clientSecret),
      Param("grant_type", "refresh_token"),
      Param("refresh_token", token) ]
  }

  /**
    A property of a JSON body: serialisation drops it when undefined, so the
    body has the key exactly when the value is defined, and nothing else.
   */
  function Defined(key: string, v: Option<Json>): (r: seq<Field>)
    ensures FieldValue(r, key) == v
    ensures forall k :: k != key ==> FieldValue(r, k) == None
    ensures FieldKeys(r) == if v.Some? then {key} else {}
  {
    match v
    case None => []
    case Some(x) => [Field(key, x)]
  }

  /**
    The record fields written after a successful refresh: the three token
    values as the response gives them, and the refresh time.
   */
  function RefreshFields(t: TokenResponse, now: string): seq<Field> {
    Defined("strava_access_token", t.accessToken)
      + Defined("strava_refresh_token", t.refreshToken)
      + Defined("strava_token_expires_at", t.expiresAt)
      + [Field("strava_token_refreshed_at", JStr(now))]
  }

  /**
    `refreshStravaToken`: refuse a user without a refresh token; otherwise
    call the token endpoint, then patch the user's record with the result.
   */
  function RefreshStravaToken(user: User, s: Settings, now: string,
                              refresh: CallResult<TokenResponse>, patch: CallResult<()>): (r: Run<RefreshOutcome>)
    ensures !Present(user.refreshToken) ==> r == Run(RefreshFailed(NoRefreshTokenMessage), [])
    ensures r.outcome.Refreshed? <==> Present(user.refreshToken) && refresh.Ok? && patch.Ok?
    ensures Present(user.refreshToken) ==>
      1 <= |r.calls| <= 2 && r.calls[0] == TokenRequest(RefreshForm(s, user.refreshToken.value))
    ensures |r.calls| == 2 <==> Present(user.refreshToken) && refresh.Ok?
    ensures Present(user.refreshToken) && refresh.HttpError? ==>
      r.outcome.RefreshFailed? && StartsWith(r.outcome.message, RefreshFailedPrefix)
    ensures Present(user.refreshToken) && refresh.Ok? && patch.HttpError? ==>
      r.outcome.RefreshFailed? && StartsWith(r.outcome.message, UpdateFailedPrefix)
    ensures Present(user.refreshToken) && !refresh.Ok? ==>
      r.outcome == RefreshFailed(ErrorMessage(RefreshFailedPrefix, refresh))
    ensures Present(user.refreshToken) && refresh.Ok? && !patch.Ok? ==>
      r.outcome == RefreshFailed(ErrorMessage(UpdateFailedPrefix, patch))
  {
    if !Present(user.refreshToken) then Run(RefreshFailed(NoRefreshTokenMessage), [])
    else
      var refreshCall := TokenRequest(RefreshForm(s, user.refreshToken.value));
      if !refresh.Ok? then
        Run(RefreshFailed(ErrorMessage(RefreshFailedPrefix, refresh)), [refreshCall])
      else
        var patchCall := Patch(user.id, RefreshFields(refresh.value, now));
        if !patch.Ok? then
          Run(RefreshFailed(ErrorMessage(UpdateFailedPrefix, patch)), [refreshCall, patchCall])
        else
          Run(Refreshed, [refreshCall, patchCall])
  }

  /** After a successful refresh the only patch targets the user's own record, after the refresh call. */
  lemma RefreshPatchesOwnRecord(user: User, s: Settings, now: string,
                                t: TokenResponse, patch: CallResult<()>)
    requires Present(user.refreshToken)
    ensures RefreshStravaToken(user, s, now, Ok(t), patch).calls ==
      [ TokenRequest(RefreshForm(s, user.refreshToken.value)),
        Patch(user.id, RefreshFields(t, now)) ]
  {
  }

  /** The grant sent is the refresh-token grant for the user's stored refresh token. */
  lemma RefreshFormIsRefreshGrant(s: Settings, token: string)
    ensures ParamValue(RefreshForm(s, token), "grant_type") == Some("refresh_token")
    ensures ParamValue(RefreshForm(s, token), "refresh_token") == Some(token)
    ensures ParamValue(RefreshForm(s, token), "client_id") == Some(s.clientId)
    ensures ParamValue(RefreshForm(s, token), "client_secret") == Some(s.clientSecret)
  {
    var form := RefreshForm(s, token);
    ParamValueAt(form, 0);
    ParamValueAt(form, 1);
    ParamValueAt(form, 2);
    ParamValueAt(form, 3);
  }

  /** What a `Defined` property in front of other fields contributes to the keys and to a lookup. */
  lemma DefinedThen(key: string, v: Option<Json>, rest: seq<Field>, other: string)
    ensures FieldKeys(Defined(key, v) + rest) == (if v.Some? then {key} else {}) + FieldKeys(rest)
    ensures FieldValue(Defined(key, v) + rest, other) ==
      if v.Some? && key == other then v else FieldValue(rest, other)
  {
    if v.None? {
      assert Defined(key, v) + rest == rest;
    } else {
      var fs := Defined(key, v) + rest;
      assert fs[0] == Field(key, v.value);
      assert fs[1..] == rest;
    }
  }

  /**
    The refresh patch writes each token field exactly when the response has
    it, with the response's value, always writes the refresh time, and
    writes nothing else: in particular never the athlete id.
   */
  lemma RefreshFieldValue(t: TokenResponse, now: string, key: string)
    ensures FieldValue(RefreshFields(t, now), key) ==
      if key == "strava_access_token" then t.accessToken
      else if key == "strava_refresh_token" then t.refreshToken
      else if key == "strava_token_expires_at" then t.expiresAt
      else if key == "strava_token_refreshed_at" then Some(JStr(now))
      else None
  {
    var d := [Field("strava_token_refreshed_at", JStr(now))];
    var c := Defined("strava_token_expires_at", t.expiresAt) + d;
    var b := Defined("strava_refresh_token", t.refreshToken) + c;
    assert RefreshFields(t, now) == Defined("strava_access_token", t.accessToken) + b;
    assert d[1..] == [];
    DefinedThen("strava_token_expires_at", t.expiresAt, d, key);
    DefinedThen("strava_refresh_token", t.refreshToken, c, key);
    DefinedThen("strava_access_token", t.accessToken, b, key);
  }

  /** The athlete id and the connection time are outside the refresh patch. */
  lemma RefreshLeavesAthlete(t: TokenResponse, now: string)
    ensures "strava_athlete_id" !in FieldKeys(RefreshFields(t, now))
    ensures "strava_connected_at" !in FieldKeys(RefreshFields(t, now))
  {
    RefreshFieldValue(t, now, "strava_athlete_id");
    FieldValueAbsent(RefreshFields(t, now), "strava_athlete_id");
    RefreshFieldValue(t, now, "strava_connected_at");
    FieldValueAbsent(RefreshFields(t, now), "strava_connected_at");
  }

  /** No key is written twice by the refresh patch. */
  lemma RefreshFieldsDistinct(t: TokenResponse, now: string)
    ensures DistinctKeys(RefreshFields(t, now))
  {
  }

  /**
    On the stored record, a refresh keeps the athlete id and the connection
    time, replaces the refresh token by the response's (rotated) one, and
    records the refresh time.
   */
  lemma RefreshedRecord(rec: Store.Record, t: TokenResponse, now: string)
    ensures var r := Store.ApplyPatch(rec, RefreshFields(t, now));
      && ("strava_athlete_id" in rec ==> Store.Holds(r, "strava_athlete_id", rec["strava_athlete_id"]))
      && ("strava_connected_at" in rec ==> Store.Holds(r, "strava_connected_at", rec["strava_connected_at"]))
      && (t.refreshToken.Some? ==> Store.Holds(r, "strava_refresh_token", t.refreshToken.value))
      && Store.Holds(r, "strava_token_refreshed_at", JStr(now))
  {
    var fs := RefreshFields(t, now);
    RefreshLeavesAthlete(t, now);
    RefreshFieldsDistinct(t, now);
    var n := |fs| - 1;
    assert fs[n] == Field("strava_token_refreshed_at", JStr(now));
    Store.PatchedField(rec, fs, n);
    if t.refreshToken.Some? {
      var k := |Defined("strava_access_token", t.accessToken)|;
      assert fs[k] == Field("strava_refresh_token", t.refreshToken.value);
      Store.PatchedField(rec, fs, k);
    }
  }

  /** One user's line of the report. */
  datatype Status = Success | Error | Skipped
  datatype Detail = Detail(userId: string, status: Status, error: Option<string>)

  /** What the token endpoint and the record store answer for one user. */
  datatype Answers = Answers(refresh: CallResult<TokenResponse>, patch: CallResult<()>)

  /**
    One iteration of the sweep: a user without a refresh token is skipped;
    otherwise the refresh runs and its failure is caught into an error line.
   */
  function Visit(user: User, s: Settings, now: string, a: Answers): (r: Run<Detail>)
    ensures r.outcome.userId == user.id
    ensures r.outcome.status == Skipped <==> !Present(user.refreshToken)
    ensures r.outcome.status == Skipped ==> r.calls == [] && r.outcome.error == Some(NoRefreshTokenMessage)
    ensures r.outcome.status == Success <==> Present(user.refreshToken) && a.refresh.Ok? && a.patch.Ok?
    ensures r.outcome.status == Success ==> r.outcome.error.None?
    ensures Present(user.refreshToken) ==> r.calls == RefreshStravaToken(user, s, now, a.refresh, a.patch).calls
    ensures r.outcome.status == Error ==>
      && r.outcome.error.Some?
      && RefreshStravaToken(user, s, now, a.refresh, a.patch).outcome == RefreshFailed(r.outcome.error.value)
  {
    if Present(user.refreshToken) then
      var run := RefreshStravaToken(user, s, now, a.refresh, a.patch);
      match run.outcome
      case Refreshed => Run(Detail(user.id, Success, None), run.calls)
      case RefreshFailed(m) => Run(Detail(user.id, Error, Some(m)), run.calls)
    else
      Run(Detail(user.id, Skipped, Some(NoRefreshTokenMessage)), [])
  }

  /** Number of report lines with the given status. */
  function Count(ds: seq<Detail>, st: Status): nat
    decreases |ds|
  {
    if ds == [] then 0 else (if ds[0].status == st then 1 else 0) + Count(ds[1..], st)
  }

  /** A listed user together with what that user's calls answer. */
  datatype Entry = Entry(user: User, answers: Answers)

  /** The counters and lines the loop accumulates. */
  datatype Tally = Tally(refreshed: nat, errors: nat, details: seq<Detail>)

  /**
    The loop over the listed users, as a fold: each user's line depends on
    nothing but that user's record and answers, and the counters count the lines.
   */
  function Fold(batch: seq<Entry>, s: Settings, now: string): (r: Run<Tally>)
    ensures |r.outcome.details| == |batch|
    ensures forall i :: 0 <= i < |batch| ==>
      r.outcome.details[i] == Visit(batch[i].user, s, now, batch[i].answers).outcome
    ensures r.outcome.refreshed == Count(r.outcome.details, Success)
    ensures r.outcome.errors == Count(r.outcome.details, Error)
    decreases |batch|
  {
    if batch == [] then Run(Tally(0, 0, []), [])
    else
      var head := Visit(batch[0].user, s, now, batch[0].answers);
      var rest := Fold(batch[1..], s, now);
      var details := [head.outcome] + rest.outcome.details;
      assert details[1..] == rest.outcome.details;
      Run(Tally(
            (if head.outcome.status == Success then 1 else 0) + rest.outcome.refreshed,
            (if head.outcome.status == Error then 1 else 0) + rest.outcome.errors,
            details),
          head.calls + rest.calls)
  }

  /** Every line has exactly one status. */
  lemma {:induction false} CountPartition(ds: seq<Detail>)
    ensures Count(ds, Success) + Count(ds, Error) + Count(ds, Skipped) == |ds|
    decreases |ds|
  {
    if ds != [] {
      CountPartition(ds[1..]);
    }
  }

  /**
    The calls of a batch are the calls of its first part followed by those of
    the rest: users are processed one after the other, and nothing one user's
    calls answer changes the calls made for another. (A one-user batch makes
    exactly that user's calls, by the definition of `Fold`.)
   */
  lemma {:induction false} FoldCallsSplit(a: seq<Entry>, b: seq<Entry>, s: Settings, now: string)
    ensures Fold(a + b, s, now).calls == Fold(a, s, now).calls + Fold(b, s, now).calls
    decreases |a|
  {
    if a == [] {
      assert a + b == b;
    } else {
      assert (a + b)[0] == a[0];
      assert (a + b)[1..] == a[1..] + b;
      FoldCallsSplit(a[1..], b, s, now);
    }
  }

  /** The report the sweep returns. */
  datatype Report = Report(total: nat, refreshed: nat, errors: nat, details: seq<Detail>)

  /** The sweep's response. */
  datatype SweepResponse =
    | ConfigError                  // a required setting is missing
    | SweepFailed(message: string) // the list query failed (caught)
    | Completed(report: Report)

  function SweepStatusCode(r: SweepResponse): nat {
    if r.Completed? then 200 else 500
  }

  /** The `success` property of the JSON body; the configuration error has none. */
  function SuccessFlag(r: SweepResponse): Option<bool> {
    match r
    case ConfigError => None
    case SweepFailed(_) => Some(false)
    case Completed(_) => Some(true)
  }

  const WindowSeconds := 24 * 3600
  const PageSize := 50

  /** The list filter: tokens expiring strictly before a day from now (seconds since the epoch). */
  function ExpiringSoon(nowMs: nat): Filter {
    FieldLessThan("strava_token_expires_at", nowMs / 1000 + WindowSeconds)
  }

  /** The listed users paired with their answers, in list order. */
  function Batch(users: seq<User>, answers: nat -> Answers): (b: seq<Entry>)
    ensures |b| == |users|
    ensures forall i :: 0 <= i < |users| ==> b[i] == Entry(users[i], answers(i))
  {
    seq(|users|, i requires 0 <= i < |users| => Entry(users[i], answers(i)))
  }

  /**
    The sweep. `nowMs` is the clock in milliseconds, `now` its ISO form,
    `list` the list query's answer (`records` may be missing), and
    `answers(i)` what the calls for listed user `i` answer.
   */
  function Sweep(env: Env, nowMs: nat, now: string, list: CallResult<Option<seq<User>>>,
                 answers: nat -> Answers): (r: Run<SweepResponse>)
    ensures !Configured(env) ==> r == Run(ConfigError, [])
    ensures Configured(env) ==> r.calls != [] && r.calls[0] == ListRecords(ExpiringSoon(nowMs), PageSize)
    ensures r.outcome.Completed? <==> Configured(env) && list.Ok?
    ensures Configured(env) && !list.Ok? ==> r.calls == [ListRecords(ExpiringSoon(nowMs), PageSize)]
    ensures r.outcome.Completed? ==>
      && r.outcome.report.total == |list.value.GetOr([])|
      && |r.outcome.report.details| == r.outcome.report.total
  {
    match Validate(env)
    case None => Run(ConfigError, [])
    case Some(s) =>
      var listCall := ListRecords(ExpiringSoon(nowMs), PageSize);
      if !list.Ok? then
        Run(SweepFailed(ErrorMessage(ListFailedPrefix, list)), [listCall])
      else
        var users := list.value.GetOr([]);
        var t := Fold(Batch(users, answers), s, now);
        Run(Completed(Report(|users|, t.outcome.refreshed, t.outcome.errors, t.outcome.details)),
            [listCall] + t.calls)
  }

  /**
    The report's invariants: one line per listed user, in list order and with
    that user's id; the counters count the lines; refreshed, errors and
    skipped add up to the total.
   */
  lemma ReportInvariants(env: Env, nowMs: nat, now: string, users: Option<seq<User>>, answers: nat -> Answers)
    requires Configured(env)
    ensures var r := Sweep(env, nowMs, now, Ok(users), answers).outcome;
      var us := users.GetOr([]);
      && r.Completed?
      && r.report.total == |us|
      && |r.report.details| == |us|
      && (forall i :: 0 <= i < |us| ==> r.report.details[i].userId == us[i].id)
      && r.report.refreshed == Count(r.report.details, Success)
      && r.report.errors == Count(r.report.details, Error)
      && r.report.refreshed + r.report.errors + Count(r.report.details, Skipped) == r.report.total
  {
    var r := Sweep(env, nowMs, now, Ok(users), answers).outcome;
    CountPartition(r.report.details);
  }

  /**
    Failure isolation: each listed user's line is what that user alone would
    produce, whatever the other users' calls answered, and a user without a
    refresh token is skipped with the fixed message.
   */
  lemma UserLinesIndependent(env: Env, nowMs: nat, now: string, users: seq<User>,
                             answers: nat -> Answers, i: nat)
    requires Configured(env)
    requires i < |users|
    ensures var d := Sweep(env, nowMs, now, Ok(Some(users)), answers).outcome.report.details[i];
      && d == Visit(users[i], Validate(env).value, now, answers(i)).outcome
      && (d.status == Skipped <==> !Present(users[i].refreshToken))
      && (d.status == Success <==> Present(users[i].refreshToken) && answers(i).refresh.Ok? && answers(i).patch.Ok?)
  {
  }

  /** Per-user failures never fail the sweep: once the list query succeeds, `success` is true. */
  lemma SuccessWheneverListSucceeds(env: Env, nowMs: nat, now: string, users: Option<seq<User>>,
                                    answers: nat -> Answers)
    requires Configured(env)
    ensures SuccessFlag(Sweep(env, nowMs, now, Ok(users), answers).outcome) == Some(true)
    ensures SweepStatusCode(Sweep(env, nowMs, now, Ok(users), answers).outcome) == 200
  {
  }

  /** A failed list query is a 500 with `success: false`, and nothing else is called. */
  lemma ListFailureIsFatal(env: Env, nowMs: nat, now: string, list: CallResult<Option<seq<User>>>,
                           answers: nat -> Answers)
    requires Configured(env)
    requires !list.Ok?
    ensures var r := Sweep(env, nowMs, now, list, answers);
      && SuccessFlag(r.outcome) == Some(false)
      && SweepStatusCode(r.outcome) == 500
      && |r.calls| == 1
  {
  }

  /** A missing setting is a 500 before the list query: no call at all. */
  lemma ConfigErrorBeforeList(env: Env, nowMs: nat, now: string, list: CallResult<Option<seq<User>>>,
                              answers: nat -> Answers)
    requires !Configured(env)
    ensures Sweep(env, nowMs, now, list, answers).calls == []
    ensures SweepStatusCode(Sweep(env, nowMs, now, list, answers).outcome) == 500
  {
  }

  /**
    A rotated refresh token: a user holding refresh token r1 whose refresh is
    answered with access token a2, refresh token r2 and expiry 2000 has exactly
    those values written back, plus the refresh time.
   */
  lemma RotationExample(s: Settings, now: string)
    ensures var user := User("rec1", Some("r1"), Some(1000), None);
      var t := TokenResponse(Some(JStr("a2")), Some(JStr("r2")), Some(JNum(2000)), None);
      var r := RefreshStravaToken(user, s, now, Ok(t), Ok(()));
      && r.outcome == Refreshed
      && r.calls[1] == Patch("rec1", [ Field("strava_access_token", JStr("a2")),
                                       Field("strava_refresh_token", JStr("r2")),
                                       Field("strava_token_expires_at", JNum(2000)),
                                       Field("strava_token_refreshed_at", JStr(now)) ])
  {
  }
}

=== FILE: start.dfy ===
/**
  The start of the flow (`GET /api/strava/start`): it checks that `state`
  looks like a users-table record id and sends the browser to the
  authorization endpoint with the parameters of an authorization request
  (section 4.1.1 of RFC 6749).
 */
module Start {
  import opened Js
  import opened External

  /** What the handler reads from the request. */
  datatype Request = Request(
    state: Option<string>,           // query parameter `state`
    host: Option<string>,            // header `host`
    forwardedProto: Option<string>)  // header `x-forwarded-proto`

  datatype StartOutcome =
    | MissingState
    | InvalidState
    | ConfigError
    | Redirect(endpoint: string, params: seq<Param>)

  function StatusCode(o: StartOutcome): nat {
    match o
    case MissingState => 400
    case InvalidState => 400
    case ConfigError => 500
    case Redirect(_, _) => 307
  }

  const AuthorizeEndpoint := "https://www.strava.com/oauth/authorize"
  const CallbackPath := "/api/strava/callback"
  const RecordIdPrefix := "rec"

  /**
    The scope as the handler sets it: `read,activity:read_all` already
    percent-encoded. Setting it as a query parameter encodes it a second time
    when the URL is serialised; serialisation is not modelled here.
   */
  const Scope := "read%2Cactivity%3Aread_all"

  /** Where the authorization server sends the user back: this deployment's callback route. */
  function RedirectUri(req: Request): (u: string)
    ensures StartsWith(u, OrDefault(req.forwardedProto, "https") + "://")
  {
    var prefix := OrDefault(req.forwardedProto, "https") + "://";
    var u := prefix + Interpolate(req.host) + CallbackPath;
    assert u[..|prefix|] == prefix;
    u
  }

  /** The parameters without any named `key`. */
  function RemoveParam(ps: seq<Param>, key: string): (r: seq<Param>)
    ensures ParamValue(r, key) == None
    ensures forall k :: k != key ==> ParamValue(r, k) == ParamValue(ps, k)
    decreases |ps|
  {
    if ps == [] then []
    else if ps[0].key == key then RemoveParam(ps[1..], key)
    else [ps[0]] + RemoveParam(ps[1..], key)
  }

  /**
    `URLSearchParams.set`: the first parameter named `key` takes the new
    value and later ones are removed; without one, the pair is appended.
   */
  function SetParam(ps: seq<Param>, key: string, value: string): (r: seq<Param>)
    ensures ParamValue(r, key) == Some(value)
    ensures forall k :: k != key ==> ParamValue(r, k) == ParamValue(ps, k)
    decreases |ps|
  {
    if ps == [] then [Param(key, value)]
    else if ps[0].key == key then [Param(key, value)] + RemoveParam(ps[1..], key)
    else [ps[0]] + SetParam(ps[1..], key, value)
  }

  /** Setting a key the parameters do not have appends it. */
  lemma {:induction false} SetParamAppends(ps: seq<Param>, key: string, value: string)
    requires ParamValue(ps, key) == None
    ensures SetParam(ps, key, value) == ps + [Param(key, value)]
    decreases |ps|
  {
    if ps != [] {
      SetParamAppends(ps[1..], key, value);
      assert [ps[0]] + (ps[1..] + [Param(key, value)]) == ps + [Param(key, value)];
    }
  }

  /** The six `set` calls on the endpoint's empty query, in the handler's order. */
  function AuthorizeParams(clientId: string, redirectUri: string, state: string): seq<Param> {
    var p1 := SetParam([], "client_id", clientId);
    var p2 := SetParam(p1, "response_type", "code");
    var p3 := SetParam(p2, "redirect_uri", redirectUri);
    var p4 := SetParam(p3, "approval_prompt", "auto");
    var p5 := SetParam(p4, "scope", Scope);
    SetParam(p5, "state", state)
  }

  /** The authorization request carries exactly these six parameters, in this order. */
  lemma AuthorizeParamsExact(clientId: string, redirectUri: string, state: string)
    ensures AuthorizeParams(clientId, redirectUri, state) ==
      [ Param("client_id", clientId),
        Param("response_type", "code"),
        Param("redirect_uri", redirectUri),
        Param("approval_prompt", "auto"),
        Param("scope", Scope),
        Param("state", state) ]
  {
    var l0: seq<Param> := [];
    var l1 := SetStep(l0, "client_id", clientId);
    var l2 := SetStep(l1, "response_type", "code");
    var l3 := SetStep(l2, "redirect_uri", redirectUri);
    var l4 := SetStep(l3, "approval_prompt", "auto");
    var l5 := SetStep(l4, "scope", Scope);
    var l6 := SetStep(l5, "state", state);
  }

  /**
    One `set` of a key none of `ps` has: the result is `ps` with the pair
    appended, returned so that the next step can name it.
   */
  lemma SetStep(ps: seq<Param>, key: string, value: string) returns (r: seq<Param>)
    requires forall i :: 0 <= i < |ps| ==> ps[i].key != key
    ensures r == ps + [Param(key, value)]
    ensures SetParam(ps, key, value) == r
  {
    KeyAbsent(ps, key);
    SetParamAppends(ps, key, value);
    r := ps + [Param(key, value)];
  }

  /** A key no parameter carries has no value. */
  lemma {:induction false} KeyAbsent(ps: seq<Param>, key: string)
    requires forall i :: 0 <= i < |ps| ==> ps[i].key != key
    ensures ParamValue(ps, key) == None
    decreases |ps|
  {
    if ps != [] {
      assert forall i :: 0 <= i < |ps[1..]| ==> ps[1..][i] == ps[i + 1];
      KeyAbsent(ps[1..], key);
    }
  }

  /** The handler; `env` supplies the client id. */
  function HandleStart(req: Request, env: Env): (r: StartOutcome)
    ensures r.MissingState? <==> !Present(req.state)
    ensures r.InvalidState? <==> Present(req.state) && !StartsWith(req.state.value, RecordIdPrefix)
    ensures r.ConfigError? <==>
      Present(req.state) && StartsWith(req.state.value, RecordIdPrefix) && !Present(env.stravaClientId)
    ensures r.Redirect? ==> r.endpoint == AuthorizeEndpoint
    ensures r.Redirect? ==>
      r.params == [ Param("client_id", env.stravaClientId.value),
                    Param("response_type", "code"),
                    Param("redirect_uri", RedirectUri(req)),
                    Param("approval_prompt", "auto"),
                    Param("scope", Scope),
                    Param("state", req.state.value) ]
  {
    if !Present(req.state) then MissingState
    else if !StartsWith(req.state.value, RecordIdPrefix) then InvalidState
    else if !Present(env.stravaClientId) then ConfigError
    else
      AuthorizeParamsExact(env.stravaClientId.value, RedirectUri(req), req.state.value);
      Redirect(AuthorizeEndpoint, AuthorizeParams(env.stravaClientId.value, RedirectUri(req), req.state.value))
  }

  /** The state and client id travel unchanged: a lookup in the redirect's query finds them. */
  lemma RedirectCarriesState(req: Request, env: Env)
    requires HandleStart(req, env).Redirect?
    ensures ParamValue(HandleStart(req, env).params, "state") == req.state
    ensures ParamValue(HandleStart(req, env).params, "client_id") == env.stravaClientId
    ensures ParamValue(HandleStart(req, env).params, "redirect_uri") == Some(RedirectUri(req))
  {
    var ps := HandleStart(req, env).params;
    ParamValueAt(ps, 0);
    ParamValueAt(ps, 2);
    ParamValueAt(ps, 5);
  }

  /** The status of each answer: 400 for a missing or malformed state, 500 for a missing client id, 307 for the redirect. */
  lemma StartStatusCodes(req: Request, env: Env)
    ensures !Present(req.state) ==> StatusCode(HandleStart(req, env)) == 400
    ensures Present(req.state) && !StartsWith(req.state.value, RecordIdPrefix) ==>
      StatusCode(HandleStart(req, env)) == 400
    ensures Present(req.state) && StartsWith(req.state.value, RecordIdPrefix) && !Present(env.stravaClientId) ==>
      StatusCode(HandleStart(req, env)) == 500
    ensures Present(req.state) && StartsWith(req.state.value, RecordIdPrefix) && Present(env.stravaClientId) ==>
      StatusCode(HandleStart(req, env)) == 307
  {
  }

  /** An accepted state is a non-empty string beginning with the record-id prefix. */
  lemma AcceptedStateIsRecordId(req: Request, env: Env)
    requires HandleStart(req, env).Redirect?
    ensures req.state.Some? && |req.state.value| >= 3 && req.state.value[..3] == "rec"
  {
  }

  /** The redirect URI is the forwarded scheme (else https), `://`, the host, and the callback path. */
  lemma RedirectUriShape(req: Request)
    ensures !Present(req.forwardedProto) ==>
      RedirectUri(req) == "https://" + Interpolate(req.host) + CallbackPath
    ensures Present(req.forwardedProto) ==>
      RedirectUri(req) == req.forwardedProto.value + "://" + Interpolate(req.host) + CallbackPath
    ensures req.host.Some? ==>
      RedirectUri(req)[|RedirectUri(req)| - |req.host.value + CallbackPath|..] == req.host.value + CallbackPath
  {
  }
}

=== FILE: store.dfy ===
/**
  The users table as the record store keeps it, and what a PATCH does to one
  record: the listed fields are overwritten, every other field is kept.
 */
module Store {
  import opened Js
  import opened External

  /** One record's fields by name. */
  type Record = map<string, Json>

  /** The record holds `value` under `key`. */
  predicate Holds(rec: Record, key: string, value: Json) {
    key in rec && rec[key] == value
  }

  /** The record after a PATCH with `fields`, applied in order. */
  function ApplyPatch(rec: Record, fields: seq<Field>): (r: Record)
    ensures r.Keys == rec.Keys + FieldKeys(fields)
    ensures forall k :: k in rec && k !in FieldKeys(fields) ==> r[k] == rec[k]
    decreases |fields|
  {
    if fields == [] then rec
    else ApplyPatch(rec[fields[0].key := fields[0].value], fields[1..])
  }

  /** A key of a patch with distinct keys does not come back later in it. */
  lemma KeyNotLater(fields: seq<Field>)
    requires fields != []
    requires DistinctKeys(fields)
    ensures fields[0].key !in FieldKeys(fields[1..])
  {
    forall i | 0 <= i < |fields[1..]| ensures fields[1..][i].key != fields[0].key {
      assert fields[1..][i] == fields[i + 1];
    }
  }

  /** In a patch whose keys are distinct, field `i` is what the record holds afterwards. */
  lemma {:induction false} PatchedField(rec: Record, fields: seq<Field>, i: nat)
    requires DistinctKeys(fields)
    requires i < |fields|
    ensures Holds(ApplyPatch(rec, fields), fields[i].key, fields[i].value)
    decreases i
  {
    var next := rec[fields[0].key := fields[0].value];
    if i == 0 {
      KeyNotLater(fields);
    } else {
      assert fields[1..][i - 1] == fields[i];
      PatchedField(next, fields[1..], i - 1);
    }
  }
}
